=== FILE: README.md ===
# geom2hex — a Dafny model of the script's own decisions

geom2hex is a command-line script (`main.js`). It reads a GeoJSON file of
polygons or lines, covers each geometry with a hexagonal grid of a given
radius, and writes the grid. The grid can be clipped to the geometry, filtered
by contact with it, or left whole. All geometry work is done by the
`@turf/turf` library. This project models the decisions the script makes
itself:

- **Command line** (`cli.dfy`, module `Cli`). The left-to-right loop over the
  arguments builds a `Config`: radius, `differentMode`, `bbHex`, `merge`,
  `onlyPolygon`, and the input and output paths. The run ends in help
  (exit 0), an error exit (-100, -500 or -400), or a configuration.
  `cli_reference.dfy` gives a second description with no loop. It cuts the
  command line into items and proves the loop computes that description.
  `cli_laws.dfy` proves how outcomes change when tokens are inserted or
  repeated.
- **Geometry dispatch** (`driver.dfy`, module `Driver`). Each feature's
  geometry type tag (section 3.1 of RFC 7946) is classified: skipped as
  empty, converted from a line to a polygon, tiled as it is, or rejected. The
  per-feature loop collects one tile list per tiled feature, in input order.
  The single-geometry branch, merge mode and the run of the whole script are
  modelled too.
- **Tile filtering** (`grid.dfy`, module `Grid`). `processGeom` either returns
  the tiling whole, clips every tile to the geometry, or keeps the tiles that
  touch the geometry. The library's `intersect` and `booleanIntersects` are
  parameters, so order preservation and the subsequence property are proved
  for every possible library.

`parseFloat`, the file system and the turf operations are function-valued
parameters: the `parseNum` argument, the `Env` record and the `GeometryLib`
record (`geo.dfy`). `parseNum` returns `None` where `parseFloat` gives `NaN`.

Four details of main.js that a reader might expect to be otherwise:

- The help switch is `--help` or `/h`; `-h` is an ordinary positional token.
- An unknown token that starts with a dash is not dropped with a warning. It
  fills a path slot like any other positional.
- The radius is not required to be positive; any number `parseFloat` accepts
  is used.
- The buffer is applied before the bounding box in every mode. `-b` only skips
  the clipping or filtering.

## Model

| member | source | states |
|---|---|---|
| Cli.ScanFrom | main.js:29-78 | The loop reports only radius errors. A path slot, once filled, is never overwritten. The input slot is filled before the output slot. |
| Cli.RecognizeBySpelling | main.js:34-74 | A token is sorted by the case label it equals: help, radius or one of the four switches, each with its short and long spelling. A token equal to no label, whether or not it starts with a dash, goes to the `default:` branch. |
| Cli.SetFlag | main.js:49-63 | A switch leaves the radius and both paths untouched. |
| Cli.Place | main.js:65-73 | A positional fills the input slot if it is empty, otherwise the output slot if that is empty, and is otherwise ignored. It never changes a filled slot or any other setting. |
| Cli.ScanTakesPathsFromArguments | main.js:65-69 | Every path the loop sets is an argument that is not a switch. |
| Cli.CheckPaths | main.js:80-90 | A missing input path gives -500, checked before a missing output path, which gives -400. A halted scan passes through unchanged. |
| Cli.Parse | main.js:29-90 | A configuration is returned only with both paths non-empty. Both paths are tokens from the command line, and neither is a switch. |
| Cli.ErrorCode | main.js:41-90 | No fatal parser outcome exits with the success status 0. |
| Cli.ExitCode | main.js:35-90 | When parsing ends the run, the status is 0 exactly for help. |
| CliReference.LexRoundTrip | main.js:31-77 | Cutting the command line into items (a switch, help, `-r` with the value it swallows, a positional) loses and invents no token. |
| CliReference.FirstHalt | main.js:35-46 | The position found is the first item that ends the run: help, or `-r` with a missing or non-numeric value. |
| CliReference.ParseMatchesReference | main.js:29-90 | For every command line, the loop equals the description with no loop. The first help or bad `-r` item decides the outcome. Otherwise each switch is on exactly when it occurs. The radius is the last `-r` value, or 1 if there is none. The paths are the first and second non-empty positionals, and a missing input is reported before a missing output. |
| CliLaws.ScanAppend | main.js:31-77 | The command line can be split anywhere except right after an `-r` still waiting for its value. Scanning the whole is then scanning the first part and resuming on the rest. A scan that already stopped stays stopped. |
| CliLaws.FlagCommutes | main.js:49-63 | A switch turned on before the scan gives the same outcome as one turned on afterwards. |
| CliLaws.FlagInsertion | main.js:49-63 | Inserting `-i`, `-b`, `-m`, `-p` or a long form between two parts of the command line sets that switch's setting alone. Nothing else in the outcome changes. The one excluded boundary is right after an `-r` still waiting for its value: there the switch is swallowed as the radius value and the run exits with -100. |
| CliLaws.FlagIdempotent | main.js:49-63 | Repeating a switch changes nothing. |
| CliLaws.RadiusConsumesNext | main.js:41-47 | `-r` as the last argument exits with -100. A non-numeric value exits with -100 whatever follows. Otherwise the swallowed token matters only through its numeric value, so it is never read as a switch, help or a path. |
| CliLaws.LaterRadiusWins | main.js:41-47 | Of two consecutive `-r` value pairs, the first with a numeric value, the second decides the outcome. The general rule that the last `-r` value wins is part of `CliReference.ParseMatchesReference`. |
| CliLaws.HelpStops | main.js:35-39 | Once the scan reaches `--help` or `/h`, the outcome is help, whatever follows. |
| CliLaws.ExtraPositionalIgnored | main.js:65-73 | Once both paths are set, a further positional token changes nothing. |
| CliLaws.NoFlagsDefaults | main.js:5-11 | With only two paths given, the configuration is radius 1, `differentMode` on, and `bbHex`, `merge`, `onlyPolygon` off. |
| CliLaws.NoArgumentsNoInput | main.js:80-84 | An empty command line exits with -500. |
| CliReference.PathErrors | main.js:80-90 | When neither help nor a bad radius stops the scan, no non-empty positional gives -500 and exactly one gives -400, whatever else the command line holds. Two or more give a configuration. |
| Grid.Clip | main.js:111-116 | In clipping mode the output is no longer than the tiling. It is an order-preserving subsequence of the tiles' intersections. Each non-null intersection appears exactly as often as it occurs. |
| Grid.Touching | main.js:111-116 | In `-i` mode the output is an order-preserving subsequence of the tiles. Every kept tile touches the geometry. Every touching tile keeps all its occurrences. |
| Grid.FilterTiles | main.js:111-118 | With `-b` the tiles come back unchanged. Otherwise the output is the clipping-mode or `-i`-mode result, as `differentMode` selects. It is never longer than the input. |
| Grid.ProcessGeom | main.js:106-119 | The tiles are `hexGrid` of the bounding box of the radius-buffered geometry in every mode, `-b` included. With `-b` they come back whole. Otherwise the clipping-mode or `-i`-mode properties hold against that tiling. |
| Driver.Classify | main.js:131-153 | An empty geometry is skipped. A line type with polygon-only mode off is converted, with `autoComplete` equal to `merge`; `orderCoords` and `mutate` are set, to true, exactly when merging. Polygon types are kept. Every other type is rejected, including line types in polygon-only mode. A feature is tiled exactly when it survives. |
| Driver.Normalize | main.js:131-147 | A geometry is returned exactly for a surviving feature. A polygon comes back unchanged. A line becomes the library's conversion with the options for the merge setting. If the library's `lineToPolygon` keeps its promise, every geometry handed to `processGeom` is a Polygon or MultiPolygon. |
| Driver.SurvivingPositions | main.js:128-153 | The positions listed are increasing and in range. A position is listed exactly when its feature is non-empty and either polygonal, or a line with polygon-only mode off. |
| Driver.ProcessFeatures | main.js:127-154 | One entry per surviving feature and none for the others, in input order. Each entry is `processGeom` of that feature's normalized geometry. The count is at most the number of features. |
| Driver.SingleGrid | main.js:155-169 | A non-empty single geometry is always tiled, whatever its type and whatever polygon-only mode says. Lines are converted with `autoComplete` off. An empty geometry leaves the result unset. |
| Driver.DriveOutput | main.js:121-169 | A non-empty feature array gives one entry per surviving feature, in input order. Each entry is `processGeom` of that feature's normalized geometry. An empty array crashes. Any other document goes through the single-geometry branch. Merge mode combines the document first. |
| Driver.Drive | main.js:121-169 | The dispatch with its feature loop computes exactly `Driver.DriveOutput`. |
| Driver.RunScript | main.js:80-176 | Parser outcomes become their exit statuses. A missing input file exits with -300 and an unreadable one with -200. A readable input leads to writing the dispatch's result to the configured output path, or to a throw when the feature array is empty. Of the script's explicit `process.exit` calls, only help passes 0. A successful write ends the process normally, with status 0. |
| Geo.KindOf | main.js:132-142 | Reading a `type` member gives back that tag. The kind is a line exactly for `LineString` and `MultiLineString`, and polygonal exactly for `Polygon` and `MultiPolygon`. |
| Geo.KindOfTag | main.js:132-142 | Every kind, including an unknown one, is read back from its own tag. |
| Driver.ExitCodesDistinct | main.js:80-102 | The five fatal statuses differ from each other and from success. A missing `-r` value and a bad one share -100. |
| Driver.LineAndPointCollection | main.js:131-153 | In a collection of one LineString and one Point, the Point is always dropped. The LineString is tiled unless polygon-only mode is on. |

## Left out

- File system effects and JSON: `existsSync`, `readFileSync`, `JSON.parse`, `JSON.stringify` and `writeFileSync` (main.js:92-104, 171-176). `Env` supplies existence and parsed content. A malformed JSON file and a failing write are not modelled; both throw in the script.
- Console output, including the usage text of `printHelp` and all warnings.
- The turf operations (`buffer`, `bbox`, `hexGrid`, `intersect`, `booleanIntersects`, `lineToPolygon`, `combine`). They are foreign library calls, kept as uninterpreted fields of `GeometryLib`. Any exception they throw is not modelled.
- Floating point: `parseFloat`, `NaN` and `Infinity` are abstracted as `parseNum`.
- `process.exit` statuses are kept as the integers the script passes. The operating system's 8-bit truncation is not modelled.
- Feature `properties`, and a feature whose `geometry` is `null`. The script would throw on the latter.
- Writing `NoGrid`: `result` stays `undefined`. What `writeFileSync` then does depends on the Node.js version.

=== FILE: cli.dfy ===
/** The command-line parser of main.js (lines 29-90): a left-to-right scan over
    the arguments that follow the interpreter and script name, followed by the
    checks that both file paths were given.

    `parseFloat` is not modelled; every operation takes it as a parameter
    `parseNum`, whose `None` stands for a `NaN` result. */
module Cli {
  import opened Wrappers

  /** The run parameters. In the script they are the globals of main.js:5-11.
      An empty path means "not given": the script tests the paths with
      JavaScript truthiness, for which `undefined` and `""` are alike. */
  datatype Config = Config(
    radius: real,
    differentMode: bool,
    bbHex: bool,
    merge: bool,
    onlyPolygon: bool,
    input: string,
    output: string)

  /** The initial values of the globals (main.js:5-11). */
  const Defaults: Config := Config(1.0, true, false, false, false, "", "")

  /** The four boolean switches. */
  datatype Flag = Intersects | BBoxOnly | Merge | OnlyPolygon

  /** How the `switch` of main.js:34-74 sorts a single token. */
  datatype Token = HelpToken | RadiusToken | FlagToken(flag: Flag) | OtherToken

  /** The two case labels the `switch` accepts for each token kind;
      `OtherToken` is the `default:` branch and has none. */
  function Spellings(t: Token): set<string> {
    match t
    case HelpToken => {"--help", "/h"}
    case RadiusToken => {"-r", "--radius"}
    case FlagToken(Intersects) => {"-i", "--intersects"}
    case FlagToken(BBoxOnly) => {"-b", "--bb-box"}
    case FlagToken(Merge) => {"-m", "--merge"}
    case FlagToken(OnlyPolygon) => {"-p", "--only-polygon"}
    case OtherToken => {}
  }

  function Recognize(tok: string): Token {
    if tok == "--help" || tok == "/h" then HelpToken
    else if tok == "-r" || tok == "--radius" then RadiusToken
    else if tok == "-i" || tok == "--intersects" then FlagToken(Intersects)
    else if tok == "-b" || tok == "--bb-box" then FlagToken(BBoxOnly)
    else if tok == "-m" || tok == "--merge" then FlagToken(Merge)
    else if tok == "-p" || tok == "--only-polygon" then FlagToken(OnlyPolygon)
    else OtherToken
  }

  /** A token is sorted by the case label it equals; one that equals no
      label, a dash or not, falls to `default:`. */
  lemma RecognizeBySpelling(tok: string, u: Token)
    ensures !Recognize(tok).OtherToken? ==> tok in Spellings(Recognize(tok))
    ensures tok in Spellings(u) ==> Recognize(tok) == u
  {
  }

  /** The assignment a switch performs; it leaves the radius and the paths
      alone. */
  function SetFlag(c: Config, f: Flag): (r: Config)
    ensures r.input == c.input && r.output == c.output && r.radius == c.radius
  {
    match f
    case Intersects => c.(differentMode := false)
    case BBoxOnly => c.(bbHex := true)
    case Merge => c.(merge := true)
    case OnlyPolygon => c.(onlyPolygon := true)
  }

  /** The `default:` branch: the token fills the first path slot that is still
      falsy; once both are set it is ignored with a warning. */
  function Place(c: Config, tok: string): (r: Config)
    ensures c.input == "" ==> r.input == tok && r.output == c.output
    ensures c.input != "" ==> r.input == c.input
    ensures c.input != "" && c.output == "" ==> r.output == tok
    ensures c.input != "" && c.output != "" ==> r == c
    ensures r.(input := c.input, output := c.output) == c
    ensures WellFormed(c) && tok != "" ==> r.input != ""
  {
    if c.input == "" then c.(input := tok)
    else if c.output == "" then c.(output := tok)
    else c
  }

  /** The input slot is filled before the output slot. */
  predicate WellFormed(c: Config) {
    c.input == "" ==> c.output == ""
  }

  /** Fatal parser outcomes. `BadRadius` records the token the error message
      prints: the value that did not parse, or `None` when `-r` was the last
      argument and `process.argv[++i]` was `undefined`. */
  datatype ParseError = BadRadius(token: Option<string>) | NoInput | NoOutput

  /** The status handed to `process.exit` for each fatal parser outcome. */
  function ErrorCode(e: ParseError): (code: int)
    ensures code != 0
  {
    match e
    case BadRadius(_) => -100
    case NoInput => -500
    case NoOutput => -400
  }

  /** What parsing ends in: usage text and exit 0, an error exit, or a
      configuration to run with. `ScanFrom` also uses `Run` for "the loop
      finished", before the paths are checked. */
  datatype Outcome = Help | Exit(error: ParseError) | Run(config: Config)

  /** The loop of main.js:31-77 over the remaining arguments, starting from
      configuration `c`. */
  function ScanFrom(args: seq<string>, c: Config, parseNum: string -> Option<real>): (o: Outcome)
    ensures o.Exit? ==> o.error.BadRadius?
    ensures o.Run? && WellFormed(c) ==> WellFormed(o.config)
    ensures o.Run? && c.input != "" ==> o.config.input == c.input
    ensures o.Run? && c.output != "" ==> o.config.output == c.output
    decreases |args|
  {
    if |args| == 0 then Run(c)
    else
      match Recognize(args[0])
      case HelpToken => Help
      case RadiusToken =>
        if |args| == 1 then Exit(BadRadius(None))
        else (
          match parseNum(args[1])
          case None => Exit(BadRadius(Some(args[1])))
          case Some(x) => ScanFrom(args[2..], c.(radius := x), parseNum))
      case FlagToken(f) => ScanFrom(args[1..], SetFlag(c, f), parseNum)
      case OtherToken => ScanFrom(args[1..], Place(c, args[0]), parseNum)
  }

  /** The loop takes its paths only from arguments that are not switches. */
  lemma {:induction false} ScanTakesPathsFromArguments(args: seq<string>, c: Config, parseNum: string -> Option<real>)
    ensures ScanFrom(args, c, parseNum).Run? ==>
              var c' := ScanFrom(args, c, parseNum).config;
              && (c'.input == c.input || (c'.input in args && Recognize(c'.input).OtherToken?))
              && (c'.output == c.output || (c'.output in args && Recognize(c'.output).OtherToken?))
    decreases |args|
  {
    if |args| > 0 {
      match Recognize(args[0])
      case HelpToken =>
      case RadiusToken =>
        if |args| >= 2 && parseNum(args[1]).Some? {
          var c1 := c.(radius := parseNum(args[1]).value);
          assert ScanFrom(args, c, parseNum) == ScanFrom(args[2..], c1, parseNum);
          assert forall x :: x in args[2..] ==> x in args;
          ScanTakesPathsFromArguments(args[2..], c1, parseNum);
        }
      case FlagToken(f) =>
        var c1 := SetFlag(c, f);
        assert c1.input == c.input && c1.output == c.output;
        assert ScanFrom(args, c, parseNum) == ScanFrom(args[1..], c1, parseNum);
        assert forall x :: x in args[1..] ==> x in args;
        ScanTakesPathsFromArguments(args[1..], c1, parseNum);
      case OtherToken =>
        var c1 := Place(c, args[0]);
        assert c1.input == c.input || c1.input == args[0];
        assert c1.output == c.output || c1.output == args[0];
        assert ScanFrom(args, c, parseNum) == ScanFrom(args[1..], c1, parseNum);
        assert forall x :: x in args[1..] ==> x in args;
        ScanTakesPathsFromArguments(args[1..], c1, parseNum);
    }
  }

  /** The checks of main.js:80-90 applied to the result of the loop: a
      missing input path is reported before a missing output path. */
  function CheckPaths(o: Outcome): (r: Outcome)
    ensures !o.Run? ==> r == o
    ensures o.Run? && o.config.input == "" ==> r == Exit(NoInput)
    ensures o.Run? && o.config.input != "" && o.config.output == "" ==> r == Exit(NoOutput)
    ensures o.Run? && o.config.input != "" && o.config.output != "" ==> r == o
  {
    match o
    case Run(c) =>
      if c.input == "" then Exit(NoInput)
      else if c.output == "" then Exit(NoOutput)
      else o
    case _ => o
  }

  /** The whole parser: `args` are the tokens after the interpreter and the
      script name (`process.argv` from index 2). */
  function Parse(args: seq<string>, parseNum: string -> Option<real>): (o: Outcome)
    ensures o.Run? ==> o.config.input != "" && o.config.output != ""
    ensures o.Run? ==> o.config.input in args && Recognize(o.config.input).OtherToken?
    ensures o.Run? ==> o.config.output in args && Recognize(o.config.output).OtherToken?
  {
    ScanTakesPathsFromArguments(args, Defaults, parseNum);
    CheckPaths(ScanFrom(args, Defaults, parseNum))
  }

  /** The status `process.exit` receives when parsing ends the run. */
  function ExitCode(o: Outcome): (code: int)
    requires !o.Run?
    ensures code == 0 <==> o.Help?
  {
    match o
    case Help => 0
    case Exit(e) => ErrorCode(e)
  }
}

=== FILE: cli_laws.dfy ===
/** Laws of the parser of main.js:29-90 that relate the outcomes of different
    command lines: what inserting one token does, which later tokens can no
    longer matter, and what the defaults are. */
module CliLaws {
  import opened Wrappers
  import opened Cli

  /** Continue scanning `rest` after a scan that ended in `o`; a scan that
      already stopped stays stopped. */
  function Resume(o: Outcome, rest: seq<string>, parseNum: string -> Option<real>): Outcome {
    if o.Run? then ScanFrom(rest, o.config, parseNum) else o
  }

  /** The outcome with switch `f` turned on in the configuration. */
  function WithFlag(o: Outcome, f: Flag): Outcome {
    if o.Run? then Run(SetFlag(o.config, f)) else o
  }

  /** Splitting the command line anywhere except right after an `-r` that is
      still waiting for its value: scanning the whole is scanning the first
      part and resuming with the second. */
  lemma {:induction false} ScanAppend(a: seq<string>, b: seq<string>, c: Config, parseNum: string -> Option<real>)
    requires ScanFrom(a, c, parseNum) != Exit(BadRadius(None))
    ensures ScanFrom(a + b, c, parseNum) == Resume(ScanFrom(a, c, parseNum), b, parseNum)
    decreases |a|
  {
    if |a| == 0 {
      assert a + b == b;
    } else {
      assert (a + b)[0] == a[0];
      match Recognize(a[0])
      case HelpToken =>
      case RadiusToken =>
        assert |a| >= 2;
        assert (a + b)[1] == a[1];
        if parseNum(a[1]).Some? {
          assert (a + b)[2..] == a[2..] + b;
          ScanAppend(a[2..], b, c.(radius := parseNum(a[1]).value), parseNum);
        }
      case FlagToken(f) =>
        assert (a + b)[1..] == a[1..] + b;
        ScanAppend(a[1..], b, SetFlag(c, f), parseNum);
      case OtherToken =>
        assert (a + b)[1..] == a[1..] + b;
        ScanAppend(a[1..], b, Place(c, a[0]), parseNum);
    }
  }

  lemma SetFlagSwap(c: Config, f: Flag, g: Flag)
    ensures SetFlag(SetFlag(c, f), g) == SetFlag(SetFlag(c, g), f)
  {
  }

  lemma PlaceSetFlag(c: Config, f: Flag, tok: string)
    ensures Place(SetFlag(c, f), tok) == SetFlag(Place(c, tok), f)
  {
  }

  lemma RadiusSetFlag(c: Config, f: Flag, x: real)
    ensures SetFlag(c, f).(radius := x) == SetFlag(c.(radius := x), f)
  {
  }

  /** Turning a switch on before the scan is the same as turning it on after:
      no token reads a switch, and no token turns one off. */
  lemma {:induction false} FlagCommutes(b: seq<string>, c: Config, f: Flag, parseNum: string -> Option<real>)
    ensures ScanFrom(b, SetFlag(c, f), parseNum) == WithFlag(ScanFrom(b, c, parseNum), f)
    decreases |b|
  {
    if |b| > 0 {
      var cf := SetFlag(c, f);
      match Recognize(b[0])
      case HelpToken =>
      case RadiusToken =>
        if |b| >= 2 && parseNum(b[1]).Some? {
          var x := parseNum(b[1]).value;
          assert ScanFrom(b, cf, parseNum) == ScanFrom(b[2..], cf.(radius := x), parseNum);
          assert ScanFrom(b, c, parseNum) == ScanFrom(b[2..], c.(radius := x), parseNum);
          RadiusSetFlag(c, f, x);
          FlagCommutes(b[2..], c.(radius := x), f, parseNum);
        }
      case FlagToken(g) =>
        assert ScanFrom(b, cf, parseNum) == ScanFrom(b[1..], SetFlag(cf, g), parseNum);
        assert ScanFrom(b, c, parseNum) == ScanFrom(b[1..], SetFlag(c, g), parseNum);
        SetFlagSwap(c, f, g);
        FlagCommutes(b[1..], SetFlag(c, g), f, parseNum);
      case OtherToken =>
        assert ScanFrom(b, cf, parseNum) == ScanFrom(b[1..], Place(cf, b[0]), parseNum);
        assert ScanFrom(b, c, parseNum) == ScanFrom(b[1..], Place(c, b[0]), parseNum);
        PlaceSetFlag(c, f, b[0]);
        FlagCommutes(b[1..], Place(c, b[0]), f, parseNum);
    }
  }

  /** A switch (`-i`, `-b`, `-m`, `-p` or a long form) inserted between `a`
      and `b` turns on its own setting and changes nothing else about the
      outcome (main.js:49-63). The one boundary excluded is right after an
      `-r` that ends `a` still waiting for its value: there main.js:42
      swallows the switch as the radius value, and the run exits with -100. */
  lemma FlagInsertion(a: seq<string>, t: string, b: seq<string>, parseNum: string -> Option<real>)
    requires Recognize(t).FlagToken?
    requires ScanFrom(a, Defaults, parseNum) != Exit(BadRadius(None))
    ensures Parse(a + [t] + b, parseNum) == WithFlag(Parse(a + b, parseNum), Recognize(t).flag)
  {
    var f := Recognize(t).flag;
    assert a + [t] + b == a + ([t] + b);
    ScanAppend(a, [t] + b, Defaults, parseNum);
    ScanAppend(a, b, Defaults, parseNum);
    var o := ScanFrom(a, Defaults, parseNum);
    if o.Run? {
      assert ([t] + b)[1..] == b;
      FlagCommutes(b, o.config, f, parseNum);
    }
  }

  /** Repeating a switch changes nothing. */
  lemma FlagIdempotent(a: seq<string>, t: string, b: seq<string>, parseNum: string -> Option<real>)
    requires Recognize(t).FlagToken?
    requires ScanFrom(a, Defaults, parseNum) != Exit(BadRadius(None))
    ensures Parse(a + [t, t] + b, parseNum) == Parse(a + [t] + b, parseNum)
  {
    var f := Recognize(t).flag;
    SwitchEndsNoRadius(a, t, parseNum);
    FlagInsertion(a + [t], t, b, parseNum);
    assert a + [t] + [t] + b == a + [t, t] + b;
    FlagInsertion(a, t, b, parseNum);
    var p := Parse(a + b, parseNum);
    if p.Run? {
      SetFlagTwice(p.config, f);
    }
  }

  /** A switch never leaves an `-r` waiting for its value. */
  lemma SwitchEndsNoRadius(a: seq<string>, t: string, parseNum: string -> Option<real>)
    requires Recognize(t).FlagToken?
    requires ScanFrom(a, Defaults, parseNum) != Exit(BadRadius(None))
    ensures ScanFrom(a + [t], Defaults, parseNum) != Exit(BadRadius(None))
  {
    var o := ScanFrom(a, Defaults, parseNum);
    ScanAppend(a, [t], Defaults, parseNum);
    if o.Run? {
      assert [t][1..] == [];
      assert ScanFrom([t], o.config, parseNum) == Run(SetFlag(o.config, Recognize(t).flag));
    }
  }

  lemma SetFlagTwice(c: Config, f: Flag)
    ensures SetFlag(SetFlag(c, f), f) == SetFlag(c, f)
  {
  }

  /** `-r` always swallows the next token: if there is none, or it is not a
      number, the run ends with -100 whatever follows; otherwise the token
      matters only through its numeric value, so it is never taken for a
      switch, a help request or a path (main.js:41-46). */
  lemma RadiusConsumesNext(a: seq<string>, t: string, v: string, w: string, b: seq<string>, parseNum: string -> Option<real>)
    requires Recognize(t) == RadiusToken
    requires ScanFrom(a, Defaults, parseNum).Run?
    ensures Parse(a + [t], parseNum) == Exit(BadRadius(None))
    ensures parseNum(v).None? ==> Parse(a + [t, v] + b, parseNum) == Exit(BadRadius(Some(v)))
    ensures parseNum(v).Some? && parseNum(v) == parseNum(w) ==>
              Parse(a + [t, v] + b, parseNum) == Parse(a + [t, w] + b, parseNum)
  {
    ScanAppend(a, [t], Defaults, parseNum);
    ScanAppend(a, [t, v] + b, Defaults, parseNum);
    ScanAppend(a, [t, w] + b, Defaults, parseNum);
    assert a + [t, v] + b == a + ([t, v] + b);
    assert a + [t, w] + b == a + ([t, w] + b);
    assert ([t, v] + b)[2..] == b;
    assert ([t, w] + b)[2..] == b;
  }

  /** Two `-r` in a row, the first with a valid value: the second decides. */
  lemma RadiusTwice(c: Config, t1: string, v1: string, t2: string, v2: string, b: seq<string>,
                    parseNum: string -> Option<real>)
    requires Recognize(t1) == RadiusToken && Recognize(t2) == RadiusToken
    requires parseNum(v1).Some?
    ensures ScanFrom([t1, v1, t2, v2] + b, c, parseNum) == ScanFrom([t2, v2] + b, c, parseNum)
  {
    var c1 := c.(radius := parseNum(v1).value);
    assert ([t1, v1, t2, v2] + b)[2..] == [t2, v2] + b;
    assert ScanFrom([t1, v1, t2, v2] + b, c, parseNum) == ScanFrom([t2, v2] + b, c1, parseNum);
    assert ([t2, v2] + b)[2..] == b;
    if parseNum(v2).Some? {
      var x2 := parseNum(v2).value;
      assert c1.(radius := x2) == c.(radius := x2);
    }
  }

  /** Of two consecutive `-r` value pairs, the first with a numeric value,
      the second decides (main.js:42 overwrites `radius`). That the last `-r`
      value wins in general, with other tokens between, is part of
      `CliReference.ParseMatchesReference`. */
  lemma LaterRadiusWins(a: seq<string>, t1: string, v1: string, t2: string, v2: string, b: seq<string>,
                        parseNum: string -> Option<real>)
    requires Recognize(t1) == RadiusToken && Recognize(t2) == RadiusToken
    requires parseNum(v1).Some?
    requires ScanFrom(a, Defaults, parseNum) != Exit(BadRadius(None))
    ensures Parse(a + [t1, v1, t2, v2] + b, parseNum) == Parse(a + [t2, v2] + b, parseNum)
  {
    assert a + [t1, v1, t2, v2] + b == a + ([t1, v1, t2, v2] + b);
    assert a + [t2, v2] + b == a + ([t2, v2] + b);
    ScanAppend(a, [t1, v1, t2, v2] + b, Defaults, parseNum);
    ScanAppend(a, [t2, v2] + b, Defaults, parseNum);
    var o := ScanFrom(a, Defaults, parseNum);
    if o.Run? {
      RadiusTwice(o.config, t1, v1, t2, v2, b, parseNum);
    }
  }

  /** A help request that the scan reaches ends the run with status 0, whatever
      follows (main.js:35-37). */
  lemma HelpStops(a: seq<string>, h: string, b: seq<string>, parseNum: string -> Option<real>)
    requires Recognize(h) == HelpToken
    requires ScanFrom(a, Defaults, parseNum).Run?
    ensures Parse(a + [h] + b, parseNum) == Help
  {
    assert a + [h] + b == a + ([h] + b);
    ScanAppend(a, [h] + b, Defaults, parseNum);
  }

  /** Once both paths are set, a further positional token is ignored
      (main.js:70-72). */
  lemma ExtraPositionalIgnored(a: seq<string>, p: string, b: seq<string>, parseNum: string -> Option<real>)
    requires Recognize(p) == OtherToken
    requires ScanFrom(a, Defaults, parseNum).Run?
    requires ScanFrom(a, Defaults, parseNum).config.input != ""
    requires ScanFrom(a, Defaults, parseNum).config.output != ""
    ensures Parse(a + [p] + b, parseNum) == Parse(a + b, parseNum)
  {
    assert a + [p] + b == a + ([p] + b);
    ScanAppend(a, [p] + b, Defaults, parseNum);
    ScanAppend(a, b, Defaults, parseNum);
    assert ([p] + b)[1..] == b;
  }

  /** With only the two paths given, every setting has its default value
      (main.js:7-11). */
  lemma NoFlagsDefaults(input: string, output: string, parseNum: string -> Option<real>)
    requires Recognize(input) == OtherToken && Recognize(output) == OtherToken
    requires input != "" && output != ""
    ensures Parse([input, output], parseNum) == Run(Config(1.0, true, false, false, false, input, output))
  {
    var c1 := Place(Defaults, input);
    assert [input, output][1..] == [output];
    assert ScanFrom([input, output], Defaults, parseNum) == ScanFrom([output], c1, parseNum);
    assert ScanFrom([output], c1, parseNum) == ScanFrom([], Place(c1, output), parseNum);
  }

  /** With no argument at all the input path is missing (main.js:80-84). */
  lemma NoArgumentsNoInput(parseNum: string -> Option<real>)
    ensures Parse([], parseNum) == Exit(NoInput)
    ensures ExitCode(Parse([], parseNum)) == -500
  {
  }
}

=== FILE: cli_reference.dfy ===
/** A second, declarative reading of the parser of main.js:29-90 and the proof
    that the loop computes it.

    The command line is first cut into items (a switch, a help request, `-r`
    with the value it swallows, a positional). The outcome is then described
    without any loop: the first item that stops the run decides it; otherwise
    each switch is on exactly when it occurs somewhere, the radius is the
    value of the last `-r`, and the paths are the first two non-empty
    positionals. */
module CliReference {
  import opened Wrappers
  import opened Cli

  /** One unit of the command line as the loop consumes it. Every item keeps
      its original tokens. `RadiusItem(t, None)` is an `-r` with nothing
      after it. */
  datatype Item =
    | HelpItem(tok: string)
    | RadiusItem(tok: string, value: Option<string>)
    | FlagItem(tok: string, flag: Flag)
    | Positional(tok: string)

  function Lex(args: seq<string>): seq<Item>
    decreases |args|
  {
    if |args| == 0 then []
    else
      match Recognize(args[0])
      case HelpToken => [HelpItem(args[0])] + Lex(args[1..])
      case RadiusToken =>
        if |args| == 1 then [RadiusItem(args[0], None)]
        else [RadiusItem(args[0], Some(args[1]))] + Lex(args[2..])
      case FlagToken(f) => [FlagItem(args[0], f)] + Lex(args[1..])
      case OtherToken => [Positional(args[0])] + Lex(args[1..])
  }

  /** The tokens an item was cut from. */
  function Spelling(it: Item): seq<string> {
    match it
    case RadiusItem(t, Some(v)) => [t, v]
    case _ => [it.tok]
  }

  function Unlex(items: seq<Item>): seq<string> {
    if |items| == 0 then [] else Spelling(items[0]) + Unlex(items[1..])
  }

  /** Cutting the command line into items loses and invents no token. */
  lemma {:induction false} LexRoundTrip(args: seq<string>)
    ensures Unlex(Lex(args)) == args
    decreases |args|
  {
    if |args| > 0 {
      var items := Lex(args);
      var w := if Recognize(args[0]) == RadiusToken && |args| > 1 then 2 else 1;
      LexFirst(args);
      LexRoundTrip(args[w..]);
      assert Unlex(items) == Spelling(items[0]) + Unlex(items[1..]);
      assert args[..w] + args[w..] == args;
    }
  }

  /** The first item spells the first one or two tokens; the rest of the
      items are the cut of the rest of the tokens. */
  lemma LexFirst(args: seq<string>)
    requires |args| > 0
    ensures var w := if Recognize(args[0]) == RadiusToken && |args| > 1 then 2 else 1;
      && |Lex(args)| > 0
      && Spelling(Lex(args)[0]) == args[..w]
      && Lex(args)[1..] == Lex(args[w..])
  {
    match Recognize(args[0])
    case RadiusToken =>
      if |args| > 1 {
        assert Lex(args) == [RadiusItem(args[0], Some(args[1]))] + Lex(args[2..]);
      } else {
        assert args[1..] == [];
      }
    case HelpToken =>
      assert Lex(args) == [HelpItem(args[0])] + Lex(args[1..]);
    case FlagToken(f) =>
      assert Lex(args) == [FlagItem(args[0], f)] + Lex(args[1..]);
    case OtherToken =>
      assert Lex(args) == [Positional(args[0])] + Lex(args[1..]);
  }

  /** An item that ends the scan: a help request, or `-r` whose value is
      missing or not a number. */
  predicate Halts(it: Item, parseNum: string -> Option<real>) {
    || it.HelpItem?
    || (it.RadiusItem? && (it.value.None? || parseNum(it.value.value).None?))
  }

  /** The position of the first item that ends the scan, or `|items|`. */
  function FirstHalt(items: seq<Item>, parseNum: string -> Option<real>): (k: nat)
    ensures k <= |items|
    ensures forall j :: 0 <= j < k ==> !Halts(items[j], parseNum)
    ensures k < |items| ==> Halts(items[k], parseNum)
  {
    if |items| == 0 then 0
    else if Halts(items[0], parseNum) then 0
    else 1 + FirstHalt(items[1..], parseNum)
  }

  predicate HasFlag(items: seq<Item>, f: Flag) {
    exists it :: it in items && it.FlagItem? && it.flag == f
  }

  /** The numbers the `-r` items carry, in order. */
  function RadiusValues(items: seq<Item>, parseNum: string -> Option<real>): seq<real> {
    if |items| == 0 then []
    else
      (match items[0]
       case RadiusItem(_, Some(v)) => (if parseNum(v).Some? then [parseNum(v).value] else [])
       case _ => [])
      + RadiusValues(items[1..], parseNum)
  }

  function LastOr(xs: seq<real>, default: real): real {
    if |xs| == 0 then default else xs[|xs| - 1]
  }

  /** The non-empty positional tokens, in order. */
  function Positionals(items: seq<Item>): (ps: seq<string>)
    ensures forall k :: 0 <= k < |ps| ==> ps[k] != ""
  {
    if |items| == 0 then []
    else
      (if items[0].Positional? && items[0].tok != "" then [items[0].tok] else [])
      + Positionals(items[1..])
  }

  function Nth(ps: seq<string>, k: nat): string {
    if k < |ps| then ps[k] else ""
  }

  /** The outcome of parsing `args`, described without the loop. */
  function Reference(args: seq<string>, parseNum: string -> Option<real>): Outcome {
    var items := Lex(args);
    var k := FirstHalt(items, parseNum);
    if k < |items| then
      (if items[k].HelpItem? then Help else Exit(BadRadius(items[k].value)))
    else
      var ps := Positionals(items);
      if |ps| == 0 then Exit(NoInput)
      else if |ps| == 1 then Exit(NoOutput)
      else Run(Config(
        LastOr(RadiusValues(items, parseNum), 1.0),
        !HasFlag(items, Intersects),
        HasFlag(items, BBoxOnly),
        HasFlag(items, Merge),
        HasFlag(items, OnlyPolygon),
        ps[0],
        ps[1]))
  }

  /** The same description, from an arbitrary starting configuration and
      without the path checks: the induction hypothesis for the loop. */
  function Effect(items: seq<Item>, c: Config, parseNum: string -> Option<real>): Outcome {
    var k := FirstHalt(items, parseNum);
    if k < |items| then
      (if items[k].HelpItem? then Help else Exit(BadRadius(items[k].value)))
    else
      var ps := Positionals(items);
      Run(Config(
        LastOr(RadiusValues(items, parseNum), c.radius),
        c.differentMode && !HasFlag(items, Intersects),
        c.bbHex || HasFlag(items, BBoxOnly),
        c.merge || HasFlag(items, Merge),
        c.onlyPolygon || HasFlag(items, OnlyPolygon),
        if c.input != "" then c.input else Nth(ps, 0),
        if c.output != "" then c.output else if c.input != "" then Nth(ps, 0) else Nth(ps, 1)))
  }

  /** What one item that does not end the scan does to the configuration. */
  function Step(it: Item, c: Config, parseNum: string -> Option<real>): Config
    requires !Halts(it, parseNum)
  {
    match it
    case RadiusItem(_, v) => c.(radius := parseNum(v.value).value)
    case FlagItem(_, f) => SetFlag(c, f)
    case Positional(t) => Place(c, t)
  }

  lemma HasFlagCons(it: Item, items: seq<Item>, f: Flag)
    ensures HasFlag([it] + items, f) <==> (it.FlagItem? && it.flag == f) || HasFlag(items, f)
  {
  }

  lemma EffectHalt(it: Item, items: seq<Item>, c: Config, parseNum: string -> Option<real>)
    requires Halts(it, parseNum)
    ensures Effect([it] + items, c, parseNum)
            == (if it.HelpItem? then Help else Exit(BadRadius(it.value)))
  {
  }

  /** Prepending an item that does not end the scan shifts the first
      stopping position by one and keeps the item found there. */
  lemma FirstHaltCons(it: Item, items: seq<Item>, parseNum: string -> Option<real>)
    requires !Halts(it, parseNum)
    ensures FirstHalt([it] + items, parseNum) == 1 + FirstHalt(items, parseNum)
    ensures FirstHalt(items, parseNum) < |items| ==>
              ([it] + items)[1 + FirstHalt(items, parseNum)] == items[FirstHalt(items, parseNum)]
  {
    assert ([it] + items)[1..] == items;
  }

  /** The description of an item sequence that does not stop, in terms of
      its parts. */
  lemma EffectRuns(items: seq<Item>, c: Config, parseNum: string -> Option<real>)
    requires FirstHalt(items, parseNum) == |items|
    ensures Effect(items, c, parseNum) == Run(Finished(
              c,
              RadiusValues(items, parseNum),
              HasFlag(items, Intersects), HasFlag(items, BBoxOnly),
              HasFlag(items, Merge), HasFlag(items, OnlyPolygon),
              Positionals(items)))
  {
  }

  function Finished(c: Config, vs: seq<real>, i: bool, b: bool, m: bool, p: bool, ps: seq<string>): Config {
    Config(
      LastOr(vs, c.radius),
      c.differentMode && !i,
      c.bbHex || b,
      c.merge || m,
      c.onlyPolygon || p,
      if c.input != "" then c.input else Nth(ps, 0),
      if c.output != "" then c.output else if c.input != "" then Nth(ps, 0) else Nth(ps, 1))
  }

  lemma EffectStep(it: Item, items: seq<Item>, c: Config, parseNum: string -> Option<real>)
    requires !Halts(it, parseNum)
    requires WellFormed(c)
    ensures Effect([it] + items, c, parseNum) == Effect(items, Step(it, c, parseNum), parseNum)
  {
    FirstHaltCons(it, items, parseNum);
    if FirstHalt(items, parseNum) == |items| {
      EffectRuns([it] + items, c, parseNum);
      EffectRuns(items, Step(it, c, parseNum), parseNum);
      match it
      case RadiusItem(_, _) => EffectStepRadius(it, items, c, parseNum);
      case FlagItem(_, _) => EffectStepFlag(it, items, c, parseNum);
      case Positional(_) => EffectStepPositional(it, items, c, parseNum);
    }
  }

  lemma EffectStepRadius(it: Item, items: seq<Item>, c: Config, parseNum: string -> Option<real>)
    requires it.RadiusItem? && !Halts(it, parseNum)
    ensures
      var vs := RadiusValues(items, parseNum);
      var ps := Positionals(items);
      var i := HasFlag(items, Intersects);
      var b := HasFlag(items, BBoxOnly);
      var m := HasFlag(items, Merge);
      var p := HasFlag(items, OnlyPolygon);
      Finished(c, RadiusValues([it] + items, parseNum),
               HasFlag([it] + items, Intersects), HasFlag([it] + items, BBoxOnly),
               HasFlag([it] + items, Merge), HasFlag([it] + items, OnlyPolygon),
               Positionals([it] + items))
      == Finished(Step(it, c, parseNum), vs, i, b, m, p, ps)
  {
    var all := [it] + items;
    assert all[0] == it && all[1..] == items;
    HasFlagsAfterNonFlag(it, items);
    var x := parseNum(it.value.value).value;
    assert RadiusValues(all, parseNum) == [x] + RadiusValues(items, parseNum);
    assert Positionals(all) == Positionals(items);
  }

  lemma EffectStepFlag(it: Item, items: seq<Item>, c: Config, parseNum: string -> Option<real>)
    requires it.FlagItem?
    ensures
      var vs := RadiusValues(items, parseNum);
      var ps := Positionals(items);
      var i := HasFlag(items, Intersects);
      var b := HasFlag(items, BBoxOnly);
      var m := HasFlag(items, Merge);
      var p := HasFlag(items, OnlyPolygon);
      Finished(c, RadiusValues([it] + items, parseNum),
               HasFlag([it] + items, Intersects), HasFlag([it] + items, BBoxOnly),
               HasFlag([it] + items, Merge), HasFlag([it] + items, OnlyPolygon),
               Positionals([it] + items))
      == Finished(SetFlag(c, it.flag), vs, i, b, m, p, ps)
  {
    var all := [it] + items;
    assert all[0] == it && all[1..] == items;
    HasFlagCons(it, items, Intersects);
    HasFlagCons(it, items, BBoxOnly);
    HasFlagCons(it, items, Merge);
    HasFlagCons(it, items, OnlyPolygon);
    assert RadiusValues(all, parseNum) == RadiusValues(items, parseNum);
    assert Positionals(all) == Positionals(items);
    SetFlagFinished(c, it.flag, RadiusValues(items, parseNum),
                    HasFlag(items, Intersects), HasFlag(items, BBoxOnly),
                    HasFlag(items, Merge), HasFlag(items, OnlyPolygon), Positionals(items));
  }

  lemma SetFlagFinished(c: Config, f: Flag, vs: seq<real>, i: bool, b: bool, m: bool, p: bool, ps: seq<string>)
    ensures Finished(c, vs, i || f == Intersects, b || f == BBoxOnly, m || f == Merge, p || f == OnlyPolygon, ps)
            == Finished(SetFlag(c, f), vs, i, b, m, p, ps)
  {
  }

  lemma EffectStepPositional(it: Item, items: seq<Item>, c: Config, parseNum: string -> Option<real>)
    requires it.Positional? && WellFormed(c)
    ensures
      var vs := RadiusValues(items, parseNum);
      var ps := Positionals(items);
      var i := HasFlag(items, Intersects);
      var b := HasFlag(items, BBoxOnly);
      var m := HasFlag(items, Merge);
      var p := HasFlag(items, OnlyPolygon);
      Finished(c, RadiusValues([it] + items, parseNum),
               HasFlag([it] + items, Intersects), HasFlag([it] + items, BBoxOnly),
               HasFlag([it] + items, Merge), HasFlag([it] + items, OnlyPolygon),
               Positionals([it] + items))
      == Finished(Place(c, it.tok), vs, i, b, m, p, ps)
  {
    var all := [it] + items;
    assert all[0] == it && all[1..] == items;
    HasFlagsAfterNonFlag(it, items);
    assert RadiusValues(all, parseNum) == RadiusValues(items, parseNum);
    var ps := Positionals(items);
    if it.tok != "" {
      assert Positionals(all) == [it.tok] + ps;
      PlaceFinished(c, it.tok, RadiusValues(items, parseNum),
                    HasFlag(items, Intersects), HasFlag(items, BBoxOnly),
                    HasFlag(items, Merge), HasFlag(items, OnlyPolygon), ps);
    } else {
      assert Positionals(all) == ps;
      assert Place(c, it.tok) == c;
    }
  }

  lemma HasFlagsAfterNonFlag(it: Item, items: seq<Item>)
    requires !it.FlagItem?
    ensures forall f :: HasFlag([it] + items, f) == HasFlag(items, f)
  {
    forall f ensures HasFlag([it] + items, f) == HasFlag(items, f) {
      HasFlagCons(it, items, f);
    }
  }

  lemma PlaceFinished(c: Config, t: string, vs: seq<real>, i: bool, b: bool, m: bool, p: bool, ps: seq<string>)
    requires WellFormed(c) && t != ""
    ensures Finished(c, vs, i, b, m, p, [t] + ps) == Finished(Place(c, t), vs, i, b, m, p, ps)
  {
    assert Nth([t] + ps, 0) == t;
    assert Nth([t] + ps, 1) == Nth(ps, 0);
  }

  /** The loop of main.js:31-77, run from any well-formed configuration,
      computes the declarative description. */
  lemma {:induction false} ScanIsEffect(args: seq<string>, c: Config, parseNum: string -> Option<real>)
    requires WellFormed(c)
    ensures ScanFrom(args, c, parseNum) == Effect(Lex(args), c, parseNum)
    decreases |args|
  {
    if |args| == 0 {
      assert Effect([], c, parseNum) == Run(c);
    } else {
      var rest := args[1..];
      match Recognize(args[0])
      case HelpToken =>
        EffectHalt(HelpItem(args[0]), Lex(rest), c, parseNum);
      case RadiusToken =>
        if |args| == 1 {
          EffectHalt(RadiusItem(args[0], None), [], c, parseNum);
          assert [RadiusItem(args[0], None)] + [] == [RadiusItem(args[0], None)];
        } else {
          var it := RadiusItem(args[0], Some(args[1]));
          if parseNum(args[1]).None? {
            EffectHalt(it, Lex(args[2..]), c, parseNum);
          } else {
            ScanIsEffect(args[2..], Step(it, c, parseNum), parseNum);
            EffectStep(it, Lex(args[2..]), c, parseNum);
          }
        }
      case FlagToken(f) =>
        var it := FlagItem(args[0], f);
        ScanIsEffect(rest, Step(it, c, parseNum), parseNum);
        EffectStep(it, Lex(rest), c, parseNum);
      case OtherToken =>
        var it := Positional(args[0]);
        ScanIsEffect(rest, Step(it, c, parseNum), parseNum);
        EffectStep(it, Lex(rest), c, parseNum);
    }
  }

  /** The parser agrees with the declarative description on every command
      line: help or a bad radius value stops it at the first such item, every
      switch is on exactly when it occurs, the radius is the last `-r`
      value (1 without one), and the input and output paths are the first
      and second non-empty positionals, a missing input being reported
      before a missing output. */
  lemma ParseMatchesReference(args: seq<string>, parseNum: string -> Option<real>)
    ensures Parse(args, parseNum) == Reference(args, parseNum)
  {
    ScanIsEffect(args, Defaults, parseNum);
    var ps := Positionals(Lex(args));
    if |ps| >= 2 {
      assert Nth(ps, 0) == ps[0] && Nth(ps, 1) == ps[1];
    }
  }

  /** When no help request or bad radius stops the scan, the path errors
      depend only on how many non-empty positionals there are: none gives
      -500, exactly one gives -400, and two or more give a configuration
      (main.js:65-69, 80-90). */
  lemma PathErrors(args: seq<string>, parseNum: string -> Option<real>)
    requires FirstHalt(Lex(args), parseNum) == |Lex(args)|
    ensures Parse(args, parseNum) == Exit(NoInput) <==> |Positionals(Lex(args))| == 0
    ensures Parse(args, parseNum) == Exit(NoOutput) <==> |Positionals(Lex(args))| == 1
    ensures Parse(args, parseNum).Run? <==> |Positionals(Lex(args))| >= 2
  {
    ParseMatchesReference(args, parseNum);
  }
}

=== FILE: driver.dfy ===
/** The driver of main.js:121-176: optional merging, the per-feature
    geometry dispatch, and the run of the whole script from the command line
    to the file it writes. */
module Driver {
  import opened Wrappers
  import opened Cli
  import opened Geo
  import opened Grid

  /** What the collection loop does with one feature's geometry. */
  datatype Verdict =
    | SkipEmpty                      // "empty geometry" warning (main.js:152)
    | Convert(options: LineOptions)  // lineToPolygon, then tiled (main.js:132-140)
    | Keep                           // tiled as it is
    | Reject                         // "wrong geometry type" warning (main.js:142-143, 149)

  /** The options object built at main.js:133-139: `autoComplete` follows
      the merge setting, and `orderCoords` and `mutate` are present, and
      true, only when merging. */
  function LineOptionsFor(merge: bool): (o: LineOptions)
    ensures o.autoComplete == merge
    ensures merge ==> o.orderCoords == Some(true) && o.mutate == Some(true)
    ensures !merge ==> o.orderCoords == None && o.mutate == None
  {
    if merge then LineOptions(true, Some(true), Some(true))
    else LineOptions(false, None, None)
  }

  /** A feature the loop tiles, stated directly: non-empty, and polygonal, or
      a line while polygon-only mode is off. */
  predicate Survives(g: Geometry, c: Config) {
    !g.empty && (IsPolygonal(g.kind) || (IsLine(g.kind) && !c.onlyPolygon))
  }

  /** The dispatch of main.js:131-153 for one geometry. */
  function Classify(g: Geometry, c: Config): (v: Verdict)
    ensures v == SkipEmpty <==> g.empty
    ensures v.Convert? <==> !g.empty && IsLine(g.kind) && !c.onlyPolygon
    ensures v.Convert? ==> v.options.autoComplete == c.merge
    ensures v.Convert? ==> (v.options.orderCoords.Some? <==> c.merge) && (v.options.mutate.Some? <==> c.merge)
    ensures v.Convert? && c.merge ==> v.options.orderCoords == Some(true) && v.options.mutate == Some(true)
    ensures v == Keep <==> !g.empty && IsPolygonal(g.kind)
    ensures v == Reject <==> !g.empty && !IsPolygonal(g.kind) && (!IsLine(g.kind) || c.onlyPolygon)
    ensures (v.Convert? || v == Keep) <==> Survives(g, c)
  {
    if g.empty then SkipEmpty
    else if IsLine(g.kind) && !c.onlyPolygon then Convert(LineOptionsFor(c.merge))
    else if !IsPolygonal(g.kind) then Reject
    else Keep
  }

  /** The geometry handed to `processGeom` for one feature, if any. */
  function Normalize(g: Geometry, c: Config, lib: GeometryLib): (r: Option<Geometry>)
    ensures r.Some? <==> Survives(g, c)
    ensures IsPolygonal(g.kind) && !g.empty ==> r == Some(g)
    ensures r.Some? && IsLine(g.kind) ==> r == Some(lib.lineToPolygon(g, LineOptionsFor(c.merge)))
    ensures r.Some? && LineToPolygonIsPolygonal(lib) ==> IsPolygonal(r.value.kind)
  {
    match Classify(g, c)
    case Convert(o) => Some(lib.lineToPolygon(g, o))
    case Keep => Some(g)
    case _ => None
  }

  /** The positions among the first `n` features that the loop tiles, in
      increasing order. */
  function SurvivingPositions(features: seq<Geometry>, c: Config, n: nat): (ps: seq<nat>)
    requires n <= |features|
    ensures |ps| <= n
    ensures forall k :: 0 <= k < |ps| ==> ps[k] < n
    ensures forall k, l :: 0 <= k < l < |ps| ==> ps[k] < ps[l]
    ensures forall j :: 0 <= j < n ==> (j in ps <==> Survives(features[j], c))
  {
    if n == 0 then []
    else
      var ps := SurvivingPositions(features, c, n - 1);
      if Survives(features[n - 1], c) then ps + [n - 1] else ps
  }

  /** The tile list the loop produces for a feature it tiles. */
  function FeatureGrid(g: Geometry, c: Config, lib: GeometryLib): seq<Geometry>
    requires Survives(g, c)
  {
    ProcessGeom(Normalize(g, c, lib).value, c, lib)
  }

  /** The tile lists the loop collects from the first `n` features: one per
      surviving feature, in input order. */
  function Grids(features: seq<Geometry>, c: Config, lib: GeometryLib, n: nat): (gs: seq<seq<Geometry>>)
    requires n <= |features|
    ensures var ps := SurvivingPositions(features, c, n);
      && |gs| == |ps|
      && forall k :: 0 <= k < |gs| ==>
           ps[k] < |features| && Survives(features[ps[k]], c) && gs[k] == FeatureGrid(features[ps[k]], c, lib)
  {
    if n == 0 then []
    else
      var gs := Grids(features, c, lib, n - 1);
      if Survives(features[n - 1], c) then gs + [FeatureGrid(features[n - 1], c, lib)] else gs
  }

  /** One more feature extends the positions and the tile lists by that
      feature exactly when it survives, with the grid of its normalized
      geometry. */
  lemma CollectStep(features: seq<Geometry>, c: Config, lib: GeometryLib, i: nat)
    requires i < |features|
    ensures Normalize(features[i], c, lib).Some? <==> Survives(features[i], c)
    ensures Survives(features[i], c) ==>
              && SurvivingPositions(features, c, i + 1) == SurvivingPositions(features, c, i) + [i]
              && Grids(features, c, lib, i + 1)
                   == Grids(features, c, lib, i) + [ProcessGeom(Normalize(features[i], c, lib).value, c, lib)]
    ensures !Survives(features[i], c) ==>
              && SurvivingPositions(features, c, i + 1) == SurvivingPositions(features, c, i)
              && Grids(features, c, lib, i + 1) == Grids(features, c, lib, i)
  {
  }

  /** The loop of main.js:128-154 over a non-empty feature array. Besides the
      result list it returns `kept`, the positions of the features that
      produced its entries. */
  method ProcessFeatures(features: seq<Geometry>, c: Config, lib: GeometryLib)
    returns (result: seq<seq<Geometry>>, kept: seq<nat>)
    ensures kept == SurvivingPositions(features, c, |features|)
    ensures result == Grids(features, c, lib, |features|)
    ensures |result| == |kept| <= |features|
    ensures forall k :: 0 <= k < |kept| ==> kept[k] < |features|
    ensures forall k, l :: 0 <= k < l < |kept| ==> kept[k] < kept[l]
    ensures forall i :: 0 <= i < |features| ==> (i in kept <==> Survives(features[i], c))
    ensures forall k :: 0 <= k < |kept| ==>
              Survives(features[kept[k]], c) && result[k] == FeatureGrid(features[kept[k]], c, lib)
  {
    result := [];
    kept := [];
    var i := 0;
    while i < |features|
      invariant 0 <= i <= |features|
      invariant kept == SurvivingPositions(features, c, i)
      invariant result == Grids(features, c, lib, i)
    {
      CollectStep(features, c, lib, i);
      match Normalize(features[i], c, lib) {
        case Some(p) =>
          result := result + [ProcessGeom(p, c, lib)];
          kept := kept + [i];
        case None =>
      }
      i := i + 1;
    }
  }

  /** What the script ends up with before writing: one tile list per tiled
      feature, one tile list for a single geometry, nothing (`result` stays
      `undefined`), or a crash. */
  datatype Output =
    | PerFeature(grids: seq<seq<Geometry>>)
    | OneGrid(grid: seq<Geometry>)
    | NoGrid
    | Crashed

  /** The document the dispatch sees: merge mode first combines the whole
      input into multi-geometries (main.js:123-125). */
  function Prepared(doc: Document, c: Config, lib: GeometryLib): (d: Document)
    ensures !c.merge ==> d == doc
    ensures c.merge ==> d == lib.combine(doc)
  {
    if c.merge then lib.combine(doc) else doc
  }

  /** The single-geometry branch (main.js:155-169). It converts lines with
      `autoComplete` off and rejects no type: polygon-only mode is ignored.
      Here the script hands `processGeom` the Feature that `lineToPolygon`
      returns, not its `.geometry` as at main.js:140; the same
      `lineToPolygon` field stands for both, because the library's buffer,
      bbox and intersection operations read a Feature through its
      geometry, so the tiles agree. */
  function SingleGrid(g: Geometry, c: Config, lib: GeometryLib): (out: Output)
    ensures g.empty <==> out == NoGrid
    ensures !g.empty ==> out.OneGrid?
    ensures !g.empty && !IsLine(g.kind) ==> out == OneGrid(ProcessGeom(g, c, lib))
    ensures !g.empty && IsLine(g.kind) ==>
              out == OneGrid(ProcessGeom(lib.lineToPolygon(g, LineOptions(false, None, None)), c, lib))
  {
    if g.empty then NoGrid
    else
      var p := if IsLine(g.kind) then lib.lineToPolygon(g, LineOptions(false, None, None)) else g;
      OneGrid(ProcessGeom(p, c, lib))
  }

  /** What main.js:121-169 leaves in `result` for the parsed input. An empty
      feature array falls into the single-geometry branch, where
      `pol.features.geometry` is `undefined` and reading its `coordinates`
      throws. */
  function DriveOutput(doc: Document, c: Config, lib: GeometryLib): (out: Output)
    ensures var d := Prepared(doc, c, lib);
      && (out.PerFeature? <==> d.Collection? && |d.features| > 0)
      && (out.Crashed? <==> d.Collection? && |d.features| == 0)
      && (out.PerFeature? ==>
            var ps := SurvivingPositions(d.features, c, |d.features|);
            && |out.grids| == |ps| <= |d.features|
            && forall k :: 0 <= k < |ps| ==>
                 ps[k] < |d.features| && Survives(d.features[ps[k]], c)
                 && out.grids[k] == FeatureGrid(d.features[ps[k]], c, lib))
      && (!d.Collection? ==> out == SingleGrid(d.geometry, c, lib))
  {
    match Prepared(doc, c, lib)
    case Collection(features) =>
      if |features| > 0 then PerFeature(Grids(features, c, lib, |features|)) else Crashed
    case SingleFeature(g) => SingleGrid(g, c, lib)
    case BareGeometry(g) => SingleGrid(g, c, lib)
  }

  /** The dispatch as the script runs it, with the feature loop. */
  method Drive(doc: Document, c: Config, lib: GeometryLib) returns (out: Output)
    ensures out == DriveOutput(doc, c, lib)
  {
    var d := Prepared(doc, c, lib);
    match d
    case Collection(features) =>
      if |features| > 0 {
        var grids, _ := ProcessFeatures(features, c, lib);
        out := PerFeature(grids);
      } else {
        out := Crashed;
      }
    case SingleFeature(g) =>
      out := SingleGrid(g, c, lib);
    case BareGeometry(g) =>
      out := SingleGrid(g, c, lib);
  }

  /** The file system as the script sees it: whether a path exists, and the
      parsed content of a file, `None` when reading it fails. */
  datatype Env = Env(
    parseNum: string -> Option<real>,
    fileExists: string -> bool,
    read: string -> Option<Document>)

  /** Fatal outcomes after parsing (main.js:92-102). */
  datatype IoError = NotFound | Unreadable

  function IoCode(e: IoError): int {
    match e
    case NotFound => -300
    case Unreadable => -200
  }

  /** How a run of the script ends. */
  datatype RunResult = Exited(code: int) | Wrote(path: string, output: Output) | Threw

  /** The script from start to finish. */
  method RunScript(args: seq<string>, env: Env, lib: GeometryLib) returns (r: RunResult)
    ensures var o := Parse(args, env.parseNum);
      && (!o.Run? ==> r == Exited(ExitCode(o)))
      && (o.Run? && !env.fileExists(o.config.input) ==> r == Exited(IoCode(NotFound)))
      && (o.Run? && env.fileExists(o.config.input) && env.read(o.config.input).None? ==> r == Exited(IoCode(Unreadable)))
      && (r.Wrote? ==> o.Run? && r.path == o.config.output && !r.output.Crashed?)
      && (o.Run? && env.fileExists(o.config.input) && env.read(o.config.input).Some? ==>
            var out := DriveOutput(env.read(o.config.input).value, o.config, lib);
            r == (if out.Crashed? then Threw else Wrote(o.config.output, out)))
      && (r.Exited? ==> (r.code == 0 <==> o.Help?))
  {
    var o := Parse(args, env.parseNum);
    if !o.Run? {
      return Exited(ExitCode(o));
    }
    var c := o.config;
    if !env.fileExists(c.input) {
      return Exited(IoCode(NotFound));
    }
    match env.read(c.input)
    case None =>
      r := Exited(IoCode(Unreadable));
    case Some(doc) =>
      var out := Drive(doc, c, lib);
      if out.Crashed? {
        r := Threw;
      } else {
        r := Wrote(c.output, out);
      }
  }

  /** The five fatal statuses (a missing or bad radius value share one) are
      distinct from each other and from success. */
  lemma ExitCodesDistinct(e1: ParseError, e2: ParseError, i1: IoError, i2: IoError)
    ensures ErrorCode(e1) == ErrorCode(e2) <==> e1 == e2 || (e1.BadRadius? && e2.BadRadius?)
    ensures IoCode(i1) == IoCode(i2) <==> i1 == i2
    ensures ErrorCode(e1) != IoCode(i1) && IoCode(i1) != 0
  {
  }

  /** A collection holding one LineString and one Point: the Point is always
      dropped, the LineString is tiled unless polygon-only mode is on. */
  lemma LineAndPointCollection(line: Geometry, point: Geometry, c: Config)
    requires line.kind == LineString && !line.empty
    requires point.kind == Point && !point.empty
    ensures SurvivingPositions([line, point], c, 2) == (if c.onlyPolygon then [] else [0])
  {
  }
}

=== FILE: geo.dfy ===
/** The GeoJSON values main.js handles and the geometry library it calls.

    The library (`@turf/turf`) is not part of this model: its operations are
    the fields of a `GeometryLib` record that every operation receives, so
    nothing is assumed about them beyond their types, except where a lemma
    states an assumption as a precondition. */
module Geo {
  import opened Wrappers

  /** The seven geometry type tags of section 3.1 of RFC 7946. */
  const KnownTags: set<string> :=
    {"Point", "MultiPoint", "LineString", "MultiLineString", "Polygon", "MultiPolygon", "GeometryCollection"}

  /** A `type` member that names none of the seven geometry types. */
  type OtherTag = s: string | s !in KnownTags witness ""

  /** A geometry's type, by its `type` member: one of the seven of RFC 7946,
      or any other tag an input file may carry. */
  datatype GeomKind =
    | Point
    | MultiPoint
    | LineString
    | MultiLineString
    | Polygon
    | MultiPolygon
    | GeometryCollection
    | Unknown(tag: OtherTag)

  /** The `type` member a geometry of kind `k` carries. */
  function Tag(k: GeomKind): (s: string)
    ensures k.Unknown? <==> s !in KnownTags
  {
    match k
    case Point => "Point"
    case MultiPoint => "MultiPoint"
    case LineString => "LineString"
    case MultiLineString => "MultiLineString"
    case Polygon => "Polygon"
    case MultiPolygon => "MultiPolygon"
    case GeometryCollection => "GeometryCollection"
    case Unknown(t) => t
  }

  /** Reading a `type` member. The script compares the tag with the names in
      its two lists, so a kind is a line or polygonal exactly when its tag is
      one of those names (main.js:132, 142). */
  function KindOf(s: string): (k: GeomKind)
    ensures Tag(k) == s
    ensures IsLine(k) <==> s in ["LineString", "MultiLineString"]
    ensures IsPolygonal(k) <==> s in ["Polygon", "MultiPolygon"]
  {
    if s == "Point" then Point
    else if s == "MultiPoint" then MultiPoint
    else if s == "LineString" then LineString
    else if s == "MultiLineString" then MultiLineString
    else if s == "Polygon" then Polygon
    else if s == "MultiPolygon" then MultiPolygon
    else if s == "GeometryCollection" then GeometryCollection
    else Unknown(s)
  }

  /** Every kind is read back from its own tag, so reading a tag loses
      nothing. */
  lemma KindOfTag(k: GeomKind)
    ensures KindOf(Tag(k)) == k
  {
  }

  /** The line types the script converts (main.js:132). */
  predicate IsLine(k: GeomKind) {
    k == LineString || k == MultiLineString
  }

  /** The types the script tiles as they are (main.js:142). */
  predicate IsPolygonal(k: GeomKind) {
    k == Polygon || k == MultiPolygon
  }

  /** A geometry. `empty` is the script's emptiness test: `coordinates` is
      missing or its `toString()` is the empty string (main.js:131, 160).
      `coordinates` is the coordinate payload, which the script reads only
      for the emptiness test that `empty` records. */
  datatype Geometry = Geometry(kind: GeomKind, empty: bool, coordinates: seq<real>)

  /** The options object handed to `lineToPolygon`; `None` is a property that
      is not set. */
  datatype LineOptions = LineOptions(autoComplete: bool, orderCoords: Option<bool>, mutate: Option<bool>)

  datatype BBox = BBox(west: real, south: real, east: real, north: real)

  /** The parsed input document, by the shape main.js:127 and 156-157 test:
      - `Collection`: a `features` array (each feature by its geometry);
      - `SingleFeature`: a `features` property that is not an array but one
        feature object, whose `geometry` is used;
      - `BareGeometry`: no `features` property. A lone RFC 7946 Feature
        object lands here too and, having no `coordinates`, is empty. */
  datatype Document =
    | Collection(features: seq<Geometry>)
    | SingleFeature(geometry: Geometry)
    | BareGeometry(geometry: Geometry)

  /** The library operations main.js uses, with the units and flags the script
      passes fixed: kilometres, no triangulation. */
  datatype GeometryLib = GeometryLib(
    buffer: (Geometry, real) -> Geometry,
    bbox: Geometry -> BBox,
    hexGrid: (BBox, real) -> seq<Geometry>,
    intersect: (Geometry, Geometry) -> Option<Geometry>,
    booleanIntersects: (Geometry, Geometry) -> bool,
    lineToPolygon: (Geometry, LineOptions) -> Geometry,
    combine: Document -> Document)

  /** The library's promise that `lineToPolygon` yields a polygonal geometry. */
  ghost predicate LineToPolygonIsPolygonal(lib: GeometryLib) {
    forall g, o :: IsPolygonal(lib.lineToPolygon(g, o).kind)
  }
}

=== FILE: grid.dfy ===
/** `processGeom` (main.js:106-119): the hexagonal tiling of one polygon's
    buffered bounding box, then clipped to the polygon, filtered by contact
    with it, or left whole. */
module Grid {
  import opened Wrappers
  import opened Geo
  import opened Cli

  /** `xs` can be obtained from `ys` by deleting elements. */
  predicate Subseq<T(==)>(xs: seq<T>, ys: seq<T>)
    decreases |ys|
  {
    if |xs| == 0 then true
    else if |ys| == 0 then false
    else (xs[0] == ys[0] && Subseq(xs[1..], ys[1..])) || Subseq(xs, ys[1..])
  }

  /** The intersection of `g` with each tile, in tile order (`null` is `None`). */
  function Images(g: Geometry, tiles: seq<Geometry>, intersect: (Geometry, Geometry) -> Option<Geometry>): seq<Option<Geometry>> {
    seq(|tiles|, i requires 0 <= i < |tiles| => intersect(g, tiles[i]))
  }

  function Wrap(xs: seq<Geometry>): seq<Option<Geometry>> {
    seq(|xs|, i requires 0 <= i < |xs| => Some(xs[i]))
  }

  lemma ImagesCons(g: Geometry, tiles: seq<Geometry>, intersect: (Geometry, Geometry) -> Option<Geometry>)
    requires |tiles| > 0
    ensures Images(g, tiles, intersect) == [intersect(g, tiles[0])] + Images(g, tiles[1..], intersect)
  {
  }

  lemma WrapCons(x: Geometry, xs: seq<Geometry>)
    ensures Wrap([x] + xs) == [Some(x)] + Wrap(xs)
  {
  }

  /** Default mode (main.js:114-115 with `different_mode`): every tile is
      replaced by its intersection with `g` and the `null`s are dropped. */
  function Clip(g: Geometry, tiles: seq<Geometry>, intersect: (Geometry, Geometry) -> Option<Geometry>): (r: seq<Geometry>)
    ensures |r| <= |tiles|
    ensures Subseq(Wrap(r), Images(g, tiles, intersect))
    ensures forall x :: multiset(r)[x] == multiset(Images(g, tiles, intersect))[Some(x)]
  {
    if |tiles| == 0 then []
    else
      var rest := Clip(g, tiles[1..], intersect);
      ImagesCons(g, tiles, intersect);
      match intersect(g, tiles[0])
      case Some(x) =>
        WrapCons(x, rest);
        [x] + rest
      case None => rest
  }

  /** `-i` mode (main.js:114-115 without `different_mode`): the tiles that
      touch or overlap `g`, unchanged. */
  function Touching(g: Geometry, tiles: seq<Geometry>, intersects: (Geometry, Geometry) -> bool): (r: seq<Geometry>)
    ensures |r| <= |tiles|
    ensures Subseq(r, tiles)
    ensures forall t :: t in r ==> intersects(g, t)
    ensures forall t :: intersects(g, t) ==> multiset(r)[t] == multiset(tiles)[t]
  {
    if |tiles| == 0 then []
    else
      var rest := Touching(g, tiles[1..], intersects);
      assert tiles == [tiles[0]] + tiles[1..];
      if intersects(g, tiles[0]) then [tiles[0]] + rest else rest
  }

  /** The filtering step of main.js:111-116. */
  function FilterTiles(g: Geometry, tiles: seq<Geometry>, bbHex: bool, differentMode: bool, lib: GeometryLib): (r: seq<Geometry>)
    ensures |r| <= |tiles|
    ensures bbHex ==> r == tiles
    ensures !bbHex && differentMode ==>
              && Subseq(Wrap(r), Images(g, tiles, lib.intersect))
              && forall x :: multiset(r)[x] == multiset(Images(g, tiles, lib.intersect))[Some(x)]
    ensures !bbHex && !differentMode ==>
              && Subseq(r, tiles)
              && (forall t :: t in r ==> lib.booleanIntersects(g, t))
              && (forall t :: lib.booleanIntersects(g, t) ==> multiset(r)[t] == multiset(tiles)[t])
  {
    if bbHex then tiles
    else if differentMode then Clip(g, tiles, lib.intersect)
    else Touching(g, tiles, lib.booleanIntersects)
  }

  /** The tiling of main.js:107-109: the bounding box of `g` buffered by the
      radius, covered with hexagons of that radius. The buffer is applied in
      every mode. */
  function Tiling(g: Geometry, radius: real, lib: GeometryLib): seq<Geometry> {
    lib.hexGrid(lib.bbox(lib.buffer(g, radius)), radius)
  }

  /** `processGeom`: the tile list it returns for one polygon. */
  function ProcessGeom(g: Geometry, c: Config, lib: GeometryLib): (r: seq<Geometry>)
    ensures |r| <= |Tiling(g, c.radius, lib)|
    ensures c.bbHex ==> r == Tiling(g, c.radius, lib)
    ensures !c.bbHex && c.differentMode ==>
              var tiles := Tiling(g, c.radius, lib);
              && Subseq(Wrap(r), Images(g, tiles, lib.intersect))
              && forall x :: multiset(r)[x] == multiset(Images(g, tiles, lib.intersect))[Some(x)]
    ensures !c.bbHex && !c.differentMode ==>
              var tiles := Tiling(g, c.radius, lib);
              && Subseq(r, tiles)
              && (forall t :: t in r ==> lib.booleanIntersects(g, t))
              && (forall t :: lib.booleanIntersects(g, t) ==> multiset(r)[t] == multiset(tiles)[t])
  {
    FilterTiles(g, Tiling(g, c.radius, lib), c.bbHex, c.differentMode, lib)
  }
}

=== FILE: wrappers.dfy ===
/** The optional-value wrapper used wherever the script works with a value that
    JavaScript may leave `undefined`, `null` or `NaN`. */
module Wrappers {

  datatype Option<+T> = None | Some(value: T)
}
